=== FILE: README.md ===
# Parking billing and reconciliation, modelled in Dafny

This project models the billing core of the `core` module of the abn-parking
service. Spring and JPA are replaced by a pure, in-memory model. It covers:

- the **chargeable-minutes calculator** of `SessionsService`, which walks a
  parking session one minute at a time and counts the steps that fall in the
  configured daily window (8:00–21:00 by default) on a day other than Sunday;
- **starting and stopping a session**: the stop closes the licence's open
  session and invoices it when the amount (`minutes * rate`) is non-zero;
- the two **session queries** of `ParkingSessionRepository`: the open session
  of a licence, and the session that covers an observation;
- the **observation reconciliation** of `ObservationsService`: every
  unverified observation that no session covers gets one fine, if its street
  has a non-zero fine rate, and is marked verified;
- the **invoice listing and payment** of `InvoicesService`.

Instants are whole local seconds counted from Monday 1 January 2024 00:00.
The time of day is `t % 86400` and the weekday is `(t / 86400) % 7`, with
6 = Sunday. The store is three sequences (sessions, observations, invoices),
and an entity's id is its position. An invoice refers to a session id or an
observation id. Rates are a map keyed by street. The clock's `now` is a
parameter of every operation that reads it.

Files, one module each: `wrappers.dfy` (Option/Result, the `NotFound`
and `InvalidTime` errors), `schedule.dfy` (the window and clock arithmetic), `chargeable.dfy`
(the calculator), `entities.dfy` (entities, store, rate lookup), `dto.dfy`
(response views), `session_repository.dfy`, `sessions.dfy`,
`observations.dfy`, `invoices.dfy`, and `scenarios.dfy` (the application
tests' scenarios).

The calculator gets three readings that are proved to agree:

- the recursive walk `ChargeableMinutes`, with the window start inclusive;
- the loop `CountChargeableMinutes`, written as the source writes it,
  including its window test (see "## Findings": for a valid schedule the
  source's test differs from the inclusive one only when the schedule
  starts at 00:00);
- an independent day-by-day closed form, `PerDayMinutes`.

The closed form is what makes the week-long test case (468000 cents)
provable.

## Model

| member | source | states |
|---|---|---|
| Chargeable.ChargeableMinutes | core/src/main/java/abn/parking/core/service/SessionsService.java:92-111 | The minute walk with an inclusive window start never counts more than `ceil((end - start) / 60)` minutes, the number of loop iterations. |
| Chargeable.ChargeableMinutesAsWritten | core/src/main/java/abn/parking/core/service/SessionsService.java:92-111 | The minute walk with the source's own window test (start time minus 1 ms, wrapping at midnight) counts at most `ceil((end - start) / 60)` minutes, and nothing at all under a schedule starting at 00:00. |
| Chargeable.CountChargeableMinutes | core/src/main/java/abn/parking/core/service/SessionsService.java:92-111 | The loop, with the source's own window test, returns exactly the as-written walk's count, at most the number of steps. For every valid schedule not starting at 00:00 that is the inclusive walk's count. |
| Chargeable.EmptyRangeIsFree | core/src/main/java/abn/parking/core/service/SessionsService.java:98 | A session whose end is not after its start is charged 0 minutes. |
| Chargeable.MinutesCountWindowSteps | core/src/main/java/abn/parking/core/service/SessionsService.java:95-108 | The count is the number of step instants `start + 60k` before the end that lie in the window on a non-Sunday. The start is a step; the end is not. |
| Chargeable.ShortSessionInWindowIsOneMinute | core/src/main/java/abn/parking/core/service/SessionsService.java:98-108 | A session shorter than a minute that starts in the window is charged one whole minute. |
| Chargeable.StepOutsideWindowAddsNothing | core/src/main/java/abn/parking/core/service/SessionsService.java:100-102 | A step on a Sunday, or at or after the window end, contributes nothing. |
| Chargeable.SundayIsFree | core/src/main/java/abn/parking/core/service/SessionsService.java:102 | A session that stays within one Sunday is charged 0 minutes. |
| Chargeable.SplitAtStep | core/src/main/java/abn/parking/core/service/SessionsService.java:95-108 | Splitting a session at a step instant `start + 60n` no later than the end adds up: minutes(start, end) = minutes(start, b) + minutes(b, end). |
| Chargeable.MinutesMatchDaySum | core/src/main/java/abn/parking/core/service/SessionsService.java:92-111 | Over any run of whole days `d0 .. d1` enclosing the session, the minute walk equals the sum of each day's clipped window share. |
| Chargeable.MinutesMatchPerDay | core/src/main/java/abn/parking/core/service/SessionsService.java:92-111 | For every valid schedule, the minute walk equals the day-by-day sum of each day's window clipped to the session, with Sundays skipped. |
| Chargeable.DayMinutesIsOverlap | core/src/main/java/abn/parking/core/service/SessionsService.java:96-102 | For whole-minute instants, a non-Sunday's share is the overlap of `[day + start time, day + end time)` with the session, in minutes. |
| Chargeable.OneHourOnSaturdayEvening | core/src/test/java/abn/parking/core/CoreApplicationTests.java:91-99 | Saturday 20:00 to 21:00 under the default schedule is 60 minutes. |
| Chargeable.OneWeekFromSaturdayClose | core/src/test/java/abn/parking/core/CoreApplicationTests.java:113-121 | Saturday 30 Dec 2023 21:00 to Saturday 6 Jan 2024 21:00 is 4680 minutes: six 780-minute windows, with the Sunday skipped. |
| Schedule.AsWrittenAgreesAwayFromMidnight | core/src/main/java/abn/parking/core/service/SessionsService.java:96-102 | For a valid schedule not starting at 00:00, the source's test ("after start minus 1 ms, before end, not Sunday") is exactly the inclusive window `[start, end)` on a non-Sunday. |
| Schedule.MidnightStartCounterexample | core/src/main/java/abn/parking/core/service/SessionsService.java:96-102 | Under a 00:00–21:00 schedule, Monday 10:00 is in the intended window but fails the source's test. |
| Chargeable.AsWrittenMinutesAgree | core/src/main/java/abn/parking/core/service/SessionsService.java:92-111 | For every valid schedule not starting at 00:00, the walk as written counts the same minutes as the modelled walk. |
| Chargeable.MidnightStartBillsNothing | core/src/main/java/abn/parking/core/service/SessionsService.java:96-102 | With a 00:00 start time, the walk as written counts 0 minutes for every session. |
| Chargeable.MidnightStartMinutesCounterexample | core/src/main/java/abn/parking/core/service/SessionsService.java:92-111 | Monday 10:00–11:00 under a 00:00–21:00 schedule: 60 minutes intended, 0 counted as written. |
| SessionRepository.FindOpenSession | core/src/main/java/abn/parking/core/repository/ParkingSessionRepository.java:12 | Finds a session exactly when one with the licence and no end instant exists. The result is such a session, and the only one when the licence has at most one open. |
| SessionRepository.Covers | core/src/main/java/abn/parking/core/repository/ParkingSessionRepository.java:16-19 | A session covers an observation when licence and street match, it started strictly before the observation, and it ended at or after it or is still open. A closed covering session has positive length; an open one is the licence's open session. |
| SessionRepository.CoverageEdges | core/src/main/java/abn/parking/core/repository/ParkingSessionRepository.java:16-19 | A covering session has the observation's licence and street. Starting at the observation instant does not cover it. Ending at that instant does. An open session started before it does. |
| Sessions.StartSession | core/src/main/java/abn/parking/core/service/SessionsService.java:27-43 | Appends an open session for the licence and street, started now. The response echoes licence, street and start. Nothing else changes and store validity is kept. |
| Sessions.StartKeepsOneOpenIffNoneOpen | core/src/main/java/abn/parking/core/service/SessionsService.java:27-35 | Starting leaves the licence with at most one open session exactly when it had none open before. The source performs no check. |
| Sessions.AmountForSession | core/src/main/java/abn/parking/core/service/SessionsService.java:74-88 | The amount is 0 exactly when no minute is chargeable or the street's rate is 0, and always 0 on a street without a rate row. With a non-negative rate it lies between 0 and the rate times the number of loop steps. For every valid schedule not starting at 00:00 it is the source's own minute count times the rate. |
| Sessions.AmountIsMinutesTimesRate | core/src/main/java/abn/parking/core/service/SessionsService.java:74-88 | The amount is the per-day chargeable minutes times the street's rate, and 0 for a street without a rate row. |
| Sessions.StopSession | core/src/main/java/abn/parking/core/service/SessionsService.java:45-72 | `NotFound` exactly when the licence has no open session. `InvalidTime` exactly when it has one but the schedule's hour or minute is out of range, with no new store (the source's `LocalTime.of` throws and the stop rolls back). Otherwise that session's end becomes now. A zero amount adds no invoice and returns none. A non-zero amount adds exactly one unpaid invoice dated now for that session, and returns its view. |
| Sessions.StopThenStopFails | core/src/main/java/abn/parking/core/service/SessionsService.java:48-52 | When the licence had one open session, none is open after the stop, and a second stop is `NotFound`. |
| Sessions.StopInvoiceShape | core/src/main/java/abn/parking/core/service/SessionsService.java:58-68 | A stop keeps the existing invoices and adds at most one. An added invoice references the closed session, is dated at its end instant, is unpaid, and has the session's non-zero amount. |
| Observations.AddObservations | core/src/main/java/abn/parking/core/service/ObservationsService.java:31-45 | Appends one observation per request, with licence, street and instant copied and `verified` false. Everything else is untouched and validity is kept. |
| Observations.CreateFine | core/src/main/java/abn/parking/core/service/ObservationsService.java:72-86 | With a zero fine rate nothing is stored. Otherwise exactly one invoice is appended: it references the observation and no session, is dated now, is unpaid, and carries the street's non-zero fine rate. Sessions, observations and existing invoices are kept, and so is store validity. |
| Observations.VerifyOne | core/src/main/java/abn/parking/core/service/ObservationsService.java:55-66 | One pass of the loop body: only observation `j` changes, and it ends verified. Exactly one fine for `j` is appended when it is unverified, uncovered and on a street with a non-zero fine rate; otherwise the invoices are unchanged. Sessions are untouched. |
| Observations.VerifyObservations | core/src/main/java/abn/parking/core/service/ObservationsService.java:47-70 | A run leaves the sessions unchanged. It neither adds nor removes observations, and every existing invoice is kept unchanged at its position. |
| Observations.VerifyFromFacts | core/src/main/java/abn/parking/core/service/ObservationsService.java:53-67 | Processing observations `i ..` keeps sessions, earlier observations and existing invoices. It marks every later observation verified. Each added invoice is the fine of a finable observation at or after `i`, and each such observation gains exactly one invoice reference. |
| Observations.VerifiedStoreIsFixed | core/src/main/java/abn/parking/core/service/ObservationsService.java:53-55 | When every observation is already verified, processing leaves the store exactly as it was. |
| Observations.RunMarksAllVerified | core/src/main/java/abn/parking/core/service/ObservationsService.java:53-67 | After a run every observation is verified, with its licence, street and instant unchanged. |
| Observations.RunFinesExactlyTheUncovered | core/src/main/java/abn/parking/core/service/ObservationsService.java:57-62 | Existing invoices are kept. An observation gets exactly one new invoice iff it was unverified, no session covered it, and its street's fine rate is non-zero; otherwise it gets none. |
| Observations.RunFineFields | core/src/main/java/abn/parking/core/service/ObservationsService.java:72-86 | Every new invoice references a finable observation and no session. Its amount is that street's non-zero fine rate, it is dated now, and it is unpaid. |
| Observations.UnratedStreetIsNotFined | core/src/main/java/abn/parking/core/service/ObservationsService.java:73-77 | An observation on a street with no rate row gets no invoice, yet is verified. |
| Observations.OpenSessionCoversLaterObservation | core/src/main/java/abn/parking/core/service/ObservationsService.java:57-62 | An observation under a session that is still open and started before it is not fined, and the session remains open. |
| Observations.RunKeepsStoreValid | core/src/main/java/abn/parking/core/service/ObservationsService.java:80-85 | Every fine references one existing observation, so the store stays valid. |
| Observations.RunIsIdempotent | core/src/main/java/abn/parking/core/service/ObservationsService.java:53 | A second run, at any later time, changes nothing: no observation is left unverified. |
| Observations.UnverifiedFrom | core/src/main/java/abn/parking/core/repository/VehicleObservationRepository.java:9 | Returns exactly the ids of the unverified observations, strictly increasing. |
| Observations.RunVerification | core/src/main/java/abn/parking/core/service/ObservationsService.java:53-67 | Fetching the unverified observations first and then processing each one gives exactly the run `VerifyObservations`. |
| Invoices.InvoiceIdsFrom | core/src/main/java/abn/parking/core/repository/ParkingInvoiceRepository.java:9 | The ids of exactly those invoices whose session or observation has the licence, strictly increasing. |
| Invoices.ViewOf | core/src/main/java/abn/parking/core/service/InvoicesService.java:39-74 | A view copies id, instant, amount and paid. Its session part is absent iff the invoice has no session; otherwise it holds that session's licence, street and instants. The observation part works the same way. |
| Invoices.GetInvoices | core/src/main/java/abn/parking/core/service/InvoicesService.java:20-26 | Lists exactly the licence's invoices, found by session or by observation, each shown faithfully, without repeats and in store order. |
| Invoices.PayInvoice | core/src/main/java/abn/parking/core/service/InvoicesService.java:28-37 | `NotFound` exactly for an unknown id. Otherwise that invoice becomes paid with its other fields kept, and every other invoice, session and observation is unchanged. |
| Invoices.PayTwiceIsPayOnce | core/src/main/java/abn/parking/core/service/InvoicesService.java:33 | Paying the same invoice twice gives the same store as paying it once. |
| Invoices.PaidInvoiceIsListedPaid | core/src/test/java/abn/parking/core/CoreApplicationTests.java:178-205 | After paying, the licence's listing shows that invoice as paid. |
| Scenarios.StopAfterOneHourBills6000 | core/src/test/java/abn/parking/core/CoreApplicationTests.java:90-110 | Stopping Saturday 20:00–21:00 at 100 cents a minute creates one unpaid 6000-cent invoice, and a second stop is `NotFound`. |
| Scenarios.StopAfterOneWeekBills468000 | core/src/test/java/abn/parking/core/CoreApplicationTests.java:112-132 | Stopping the week-long session creates one unpaid 468000-cent invoice. |
| Scenarios.StopUnderEndOfDay24Fails | core/src/main/java/abn/parking/core/service/SessionsService.java:96-97 | With a schedule ending at 24:00, which `LocalTime.of` rejects, stopping Monday 22:00–23:00 fails with `InvalidTime` rather than billing. |
| Scenarios.StopOnFreeStreetCreatesNoInvoice | core/src/test/java/abn/parking/core/CoreApplicationTests.java:73-88 | On a street without a rate row, the stop closes the session and creates no invoice. |
| Scenarios.UncoveredObservationFinedOnce | core/src/test/java/abn/parking/core/CoreApplicationTests.java:134-160 | An uncovered observation, reconciled twice, yields exactly one 10000-cent fine, listed under its licence with the observation shown. |

## Left out

- Time zones and daylight saving: the model works in local civil seconds, so `ZoneId` and `LocalDateTime.ofInstant` are gone. The day-by-day closed form is proved equal to the inclusive minute walk (and so to the source's loop for every valid schedule not starting at 00:00), but only on this local time line.
- Sub-second precision: instants are whole seconds. The source's "after start minus 1 ms" therefore reads as "at or after start". A time of day in the last millisecond before the window start is not representable.
- Clock beans: `now` is a parameter. Controllers, `GlobalExceptionHandler` and HTTP status codes are left out; the `NoSuchElementException` becomes the `NotFound` result.
- JPA mechanics: id generation is modelled as the position in the store; `saveAll` and entity identity are not modelled. `@Transactional` rollback and the concurrency of `@Scheduled` runs against request threads are not modelled: each call is one sequential step.
- SessionRepository.FindOpenSession: when a licence has two open sessions, Spring's single-result lookup throws. The model returns the first one instead. `StartSession` does not prevent a second open session, as in the source (see `StartKeepsOneOpenIffNoneOpen`).
- Observations.VerifyObservations: when two sessions cover one observation, the single-result coverage query would throw and roll the run back. The model asks only whether a covering session exists.
- Sessions.StopSession: bills with the inclusive window (`ChargeableMinutes`), not the source's wrapped test. Under a schedule starting at 00:00 the source computes 0 minutes, returns no invoice and stores none; the model bills the minutes in the window. For every other valid schedule, the default 8:00 among them, the two agree (`Chargeable.AsWrittenMinutesAgree`); see "## Findings". An invalid schedule is an error path: the stop fails with `InvalidTime` and returns no store, as the source's `LocalTime.of` throws and rolls the stop back (the HTTP 500 itself is not modelled).
- Observations.VerifyObservations: the unverified observations are processed in id order, while `findAllByVerifiedIsFalse` has no ORDER BY. The run also reads one `now` for all its fines, where `createInvoice` reads the clock once per fine. No stated property depends on either: fines are counted per observation.
- Invoices.GetInvoices: the source's query has no ORDER BY. The model lists invoices in id order.
- Sessions.AmountForSession: counts minutes with the inclusive window (`ChargeableMinutes`), not the source's wrapped test. Under a schedule starting at 00:00 the source's amount is 0; the model's is the window minutes times the rate. For every other valid schedule its contract proves the two equal; see "## Findings". With an invalid schedule (an end of 24:00, say) the source throws where this function still returns a number; its only caller, `Sessions.StopSession`, fails with `InvalidTime` before using it.
- Chargeable.CountChargeableMinutes: takes any schedule. With an invalid one the source's `LocalTime.of` throws before the loop starts; the model counts with the out-of-range times instead. `Sessions.StopSession` rules that case out before counting.
- Sessions.AmountIsMinutesTimesRate: the `Long` product `minutes * rate` is not wrapped at 64 bits. An unbounded integer is used instead. Like `AmountForSession`, it is about the inclusive window, so under a schedule starting at 00:00 it does not describe the source's amount of 0.
- Schedule validity (`LocalTime.of` rejects hours outside 0–23 and minutes outside 0–59) is a precondition of the closed-form lemmas. In the service it is an error path of the stop (`InvalidTime`); the calculator functions themselves accept any schedule, as the two lines above say.
- `ObservationsProcessProperties`, logging, `CoreApplication` and `AdminApplication`.
- Invoices are created for any non-zero amount, as the code tests `amount == 0` and `rate == 0`. A negative rate would therefore give a negative invoice; the model keeps that rather than requiring a positive amount.

## Findings

| source | as written | input that shows it | evidently intended | confidence | as-written member | corrected member |
|---|---|---|---|---|---|---|
| core/src/main/java/abn/parking/core/service/SessionsService.java:96-102 | The inclusive start is built as `startTime.minus(1 ms)` with `isAfter`. `LocalTime` wraps at midnight, so a 00:00 start becomes 23:59:59.999 and no whole-second step passes the test. | Schedule 00:00–21:00, session Monday 10:00–11:00: 0 minutes counted. | Charge the steps from the start time inclusive: 60 minutes. | not executed; high (follows from `LocalTime` wrap-around) | Chargeable.MidnightStartMinutesCounterexample | Chargeable.MinutesMatchPerDay |

The model bills with the corrected window test, `Schedule.InWindow`.
`Chargeable.AsWrittenMinutesAgree` proves this equals the source's test for
every schedule that does not start at 00:00, including the default 8:00.

=== FILE: chargeable.dfy ===
/** The chargeable-minutes calculator of `SessionsService`.

    The source walks the session one minute at a time from its start while
    the current instant is before the end, and counts the steps that fall in
    the daily window on a day other than Sunday. `ChargeableMinutes` is that
    walk as a recursive definition with the window start inclusive, and
    `ChargeableMinutesAsWritten` the same walk with the source's own window
    test (which, for a valid schedule, differs only when it starts at
    00:00).
    `CountChargeableMinutes` is the source's loop, and `PerDayMinutes` is an
    independent day-by-day closed form proved equal to the walk. */
module Chargeable {
  import opened Schedule

  function Min(a: int, b: int): int { if a <= b then a else b }
  function Max(a: int, b: int): int { if a <= b then b else a }

  function Indicator(b: bool): nat { if b then 1 else 0 }

  /** Number of walk steps `start + 60k` (k >= 0) strictly before `x`:
      the ceiling of `(x - start) / 60`, or 0. */
  function StepsBelow(start: int, x: int): nat {
    if x <= start then 0 else (x - start + 59) / SecondsPerMinute
  }

  /** The minute walk: one step per minute from `start` while before `end`,
      counting the steps in the window. A trailing partial minute is a step
      of its own. The count never exceeds the number of loop steps,
      `ceil((end - start) / 60)`. */
  function ChargeableMinutes(s: ParkingSchedule, start: int, end: int): (r: nat)
    ensures r <= StepsBelow(start, end)
    decreases end - start
  {
    if start >= end then 0
    else
      StepsBelowShift(start, end);
      Indicator(InWindow(s, start)) + ChargeableMinutes(s, start + SecondsPerMinute, end)
  }

  /** The same walk with the window test as the source writes it. It too
      counts at most one minute per step, and nothing at all under a
      schedule starting at 00:00. */
  function ChargeableMinutesAsWritten(s: ParkingSchedule, start: int, end: int): (r: nat)
    ensures r <= StepsBelow(start, end)
    ensures WindowStart(s) == 0 ==> r == 0
    decreases end - start
  {
    if start >= end then 0
    else
      StepsBelowShift(start, end);
      MidnightStartNeverInWindow(s, start);
      Indicator(InWindowAsWritten(s, start)) + ChargeableMinutesAsWritten(s, start + SecondsPerMinute, end)
  }

  /** The source's loop: `current` starts at the session start, the counter
      goes up for every step that passes the source's window test, and
      `current` moves on by one minute until it is no longer before the end.
      For every valid schedule not starting at 00:00 this is the modelled
      walk. */
  method CountChargeableMinutes(s: ParkingSchedule, start: int, end: int) returns (total: nat)
    ensures total == ChargeableMinutesAsWritten(s, start, end)
    ensures ValidSchedule(s) && WindowStart(s) > 0 ==> total == ChargeableMinutes(s, start, end)
    ensures total <= StepsBelow(start, end)
  {
    total := 0;
    var current := start;
    while current < end
      invariant total + ChargeableMinutesAsWritten(s, current, end) == ChargeableMinutesAsWritten(s, start, end)
      decreases end - current
    {
      if InWindowAsWritten(s, current) {
        total := total + 1;
      }
      current := current + SecondsPerMinute;
    }
    if ValidSchedule(s) && WindowStart(s) > 0 {
      AsWrittenMinutesAgree(s, start, end);
    }
  }

  // ---------------------------------------------------------------------
  // Properties of the walk
  // ---------------------------------------------------------------------

  /** A session that does not end after it starts is never charged: the loop
      body does not run. */
  lemma EmptyRangeIsFree(s: ParkingSchedule, start: int, end: int)
    requires end <= start
    ensures ChargeableMinutes(s, start, end) == 0
  {
  }

  lemma StepsBelowShift(start: int, x: int)
    ensures StepsBelow(start, x) == StepsBelow(start + SecondsPerMinute, x) + Indicator(x > start)
  {
    if x > start + SecondsPerMinute {
      assert (x - start + 59) / 60 == (x - start - 60 + 59) / 60 + 1;
    }
  }

  /** A session of less than a minute that starts inside the window is
      charged one whole minute. */
  lemma ShortSessionInWindowIsOneMinute(s: ParkingSchedule, start: int, end: int)
    requires start < end <= start + SecondsPerMinute
    requires InWindow(s, start)
    ensures ChargeableMinutes(s, start, end) == 1
  {
    assert ChargeableMinutes(s, start + SecondsPerMinute, end) == 0;
  }

  /** A step on a Sunday, or at or after the window end, adds nothing. */
  lemma StepOutsideWindowAddsNothing(s: ParkingSchedule, t: int, end: int)
    requires t < end
    requires Weekday(t) == Sunday || TimeOfDay(t) >= WindowEnd(s)
    ensures ChargeableMinutes(s, t, end) == ChargeableMinutes(s, t + SecondsPerMinute, end)
  {
  }

  /** A session that stays within one Sunday is never charged. */
  lemma {:induction false} SundayIsFree(s: ParkingSchedule, start: int, end: int)
    requires Weekday(start) == Sunday
    requires end <= (DayIndex(start) + 1) * SecondsPerDay
    ensures ChargeableMinutes(s, start, end) == 0
    decreases end - start
  {
    if start < end {
      TimeOfDayBounds(start);
      TimeOfDayBounds(start + SecondsPerMinute);
      if start + SecondsPerMinute < end {
        assert DayIndex(start + SecondsPerMinute) == DayIndex(start);
        SundayIsFree(s, start + SecondsPerMinute, end);
      }
    }
  }

  /** Splitting a session at a step instant `start + 60n` at or before the
      end splits its chargeable minutes. */
  lemma {:induction false} SplitAtStep(s: ParkingSchedule, start: int, n: nat, end: int)
    requires start + n * SecondsPerMinute <= end
    ensures ChargeableMinutes(s, start, end)
         == ChargeableMinutes(s, start, start + n * SecondsPerMinute)
          + ChargeableMinutes(s, start + n * SecondsPerMinute, end)
    decreases n
  {
    if n > 0 {
      var b := start + n * SecondsPerMinute;
      assert b == (start + SecondsPerMinute) + (n - 1) * SecondsPerMinute;
      SplitAtStep(s, start + SecondsPerMinute, n - 1, end);
      SplitAtStep(s, start + SecondsPerMinute, n - 1, b);
    }
  }

  /** How many of the first `n` step instants `start + 60k` (k < n) lie in
      the window. */
  function CountSteps(s: ParkingSchedule, start: int, n: nat): nat {
    if n == 0 then 0
    else CountSteps(s, start, n - 1) + Indicator(InWindow(s, start + (n - 1) * SecondsPerMinute))
  }

  lemma {:induction false} CountStepsShift(s: ParkingSchedule, start: int, n: nat)
    ensures CountSteps(s, start, n + 1)
         == Indicator(InWindow(s, start)) + CountSteps(s, start + SecondsPerMinute, n)
  {
    if n > 0 {
      CountStepsShift(s, start, n - 1);
      assert start + n * SecondsPerMinute == start + SecondsPerMinute + (n - 1) * SecondsPerMinute;
    }
  }

  /** The walk counts exactly the steps `start + 60k` before `end` that fall
      in the window: the start is a step, the end is not. */
  lemma {:induction false} MinutesCountWindowSteps(s: ParkingSchedule, start: int, end: int)
    ensures ChargeableMinutes(s, start, end) == CountSteps(s, start, StepsBelow(start, end))
    decreases end - start
  {
    if start < end {
      MinutesCountWindowSteps(s, start + SecondsPerMinute, end);
      StepsBelowShift(start, end);
      CountStepsShift(s, start, StepsBelow(start + SecondsPerMinute, end));
    }
  }

  // ---------------------------------------------------------------------
  // An independent reference: the day-by-day closed form
  // ---------------------------------------------------------------------

  /** Walk steps falling in day `d`'s window `[d + start time, d + end time)`
      clipped to the session end; nothing on a Sunday or for an empty
      window. */
  function DayMinutes(s: ParkingSchedule, start: int, end: int, d: int): int {
    if WeekdayOfDay(d) == Sunday || WindowEnd(s) <= WindowStart(s) then 0
    else
      StepsBelow(start, Min(d * SecondsPerDay + WindowEnd(s), end))
      - StepsBelow(start, Min(d * SecondsPerDay + WindowStart(s), end))
  }

  /** Sum of `DayMinutes` over the days `d0 .. d1 - 1`. */
  function DaySum(s: ParkingSchedule, start: int, end: int, d0: int, d1: int): int
    decreases d1 - d0
  {
    if d1 <= d0 then 0 else DayMinutes(s, start, end, d0) + DaySum(s, start, end, d0 + 1, d1)
  }

  /** Chargeable minutes summed per calendar day touched by the session. */
  function PerDayMinutes(s: ParkingSchedule, start: int, end: int): int {
    if end <= start then 0 else DaySum(s, start, end, DayIndex(start), DayIndex(end) + 1)
  }

  /** The walk instant `t` hits day `d`'s window exactly when `t` lies on day
      `d` and in the window. */
  lemma DayHitIffInWindow(s: ParkingSchedule, t: int, d: int)
    requires ValidSchedule(s)
    ensures (WeekdayOfDay(d) != Sunday && WindowStart(s) < WindowEnd(s)
             && d * SecondsPerDay + WindowStart(s) <= t < d * SecondsPerDay + WindowEnd(s))
        <==> (DayIndex(t) == d && InWindow(s, t))
  {
    ValidScheduleBounds(s);
    TimeOfDayBounds(t);
    var D := DayIndex(t);
    if d < D {
      assert d * SecondsPerDay + SecondsPerDay <= D * SecondsPerDay;
    } else if d > D {
      assert D * SecondsPerDay + SecondsPerDay <= d * SecondsPerDay;
    }
  }

  lemma DayMinutesStep(s: ParkingSchedule, start: int, end: int, d: int)
    requires ValidSchedule(s) && start < end
    ensures DayMinutes(s, start, end, d)
         == DayMinutes(s, start + SecondsPerMinute, end, d)
          + Indicator(DayIndex(start) == d && InWindow(s, start))
  {
    DayHitIffInWindow(s, start, d);
    StepsBelowShift(start, Min(d * SecondsPerDay + WindowEnd(s), end));
    StepsBelowShift(start, Min(d * SecondsPerDay + WindowStart(s), end));
  }

  /** Moving the walk's start one step on takes exactly the first step's
      contribution out of the day sum. */
  lemma {:induction false} DaySumStep(s: ParkingSchedule, start: int, end: int, d0: int, d1: int)
    requires ValidSchedule(s) && start < end
    ensures DaySum(s, start, end, d0, d1)
         == DaySum(s, start + SecondsPerMinute, end, d0, d1)
          + Indicator(d0 <= DayIndex(start) < d1 && InWindow(s, start))
    decreases d1 - d0
  {
    if d0 < d1 {
      DayMinutesStep(s, start, end, d0);
      DaySumStep(s, start, end, d0 + 1, d1);
    }
  }

  lemma {:induction false} DaySumOfEmptyRange(s: ParkingSchedule, start: int, end: int, d0: int, d1: int)
    requires end <= start
    ensures DaySum(s, start, end, d0, d1) == 0
    decreases d1 - d0
  {
    if d0 < d1 {
      DaySumOfEmptyRange(s, start, end, d0 + 1, d1);
    }
  }

  /** The walk equals the day sum over any range of days covering the
      session. */
  lemma {:induction false} MinutesMatchDaySum(s: ParkingSchedule, start: int, end: int, d0: int, d1: int)
    requires ValidSchedule(s)
    requires d0 * SecondsPerDay <= start && end <= d1 * SecondsPerDay
    ensures ChargeableMinutes(s, start, end) == DaySum(s, start, end, d0, d1)
    decreases end - start
  {
    if start >= end {
      DaySumOfEmptyRange(s, start, end, d0, d1);
    } else {
      MinutesMatchDaySum(s, start + SecondsPerMinute, end, d0, d1);
      DaySumStep(s, start, end, d0, d1);
      TimeOfDayBounds(start);
    }
  }

  /** The minute walk and the day-by-day closed form agree on every session
      and every valid schedule. */
  lemma MinutesMatchPerDay(s: ParkingSchedule, start: int, end: int)
    requires ValidSchedule(s)
    ensures ChargeableMinutes(s, start, end) == PerDayMinutes(s, start, end)
  {
    if start < end {
      TimeOfDayBounds(start);
      TimeOfDayBounds(end);
      MinutesMatchDaySum(s, start, end, DayIndex(start), DayIndex(end) + 1);
    }
  }

  /** For whole-minute instants a day's share is the length of the overlap
      of the session with that day's window, in minutes: the per-day formula
      `[max(day + start time, start), min(day + end time, end))`. */
  lemma DayMinutesIsOverlap(s: ParkingSchedule, start: int, end: int, d: int)
    requires ValidSchedule(s)
    requires start % SecondsPerMinute == 0 && end % SecondsPerMinute == 0
    ensures WeekdayOfDay(d) != Sunday ==>
      DayMinutes(s, start, end, d)
        == Max(0, Min(d * SecondsPerDay + WindowEnd(s), end) - Max(d * SecondsPerDay + WindowStart(s), start)) / SecondsPerMinute
  {
    ValidScheduleBounds(s);
    var L := d * SecondsPerDay + WindowStart(s);
    var H := d * SecondsPerDay + WindowEnd(s);
    if WeekdayOfDay(d) != Sunday {
      if WindowEnd(s) <= WindowStart(s) {
        assert Max(0, Min(H, end) - Max(L, start)) == 0;
      } else {
        assert DayMinutes(s, start, end, d) == StepsBelow(start, Min(H, end)) - StepsBelow(start, Min(L, end));
        DayStartAligned(d);
        assert L % SecondsPerMinute == 0 && H % SecondsPerMinute == 0 by {
          AlignedPlus(d * SecondsPerDay, WindowStart(s));
          AlignedPlus(d * SecondsPerDay, WindowEnd(s));
        }
        AlignedOverlap(start, L, H, end);
      }
    }
  }

  lemma DayStartAligned(d: int)
    ensures (d * SecondsPerDay) % SecondsPerMinute == 0
  {
    assert d * SecondsPerDay == (d * 1440) * 60;
  }

  lemma AlignedPlus(x: int, y: int)
    requires x % SecondsPerMinute == 0 && y % SecondsPerMinute == 0
    ensures (x + y) % SecondsPerMinute == 0
  {
  }

  /** Steps of a whole-minute walk in `[L, H)` clipped to the session. */
  lemma AlignedOverlap(start: int, L: int, H: int, end: int)
    requires L <= H
    requires start % SecondsPerMinute == 0 && end % SecondsPerMinute == 0
    requires L % SecondsPerMinute == 0 && H % SecondsPerMinute == 0
    ensures StepsBelow(start, Min(H, end)) - StepsBelow(start, Min(L, end))
         == Max(0, Min(H, end) - Max(L, start)) / SecondsPerMinute
  {
    AlignedSteps(start, Min(H, end));
    AlignedSteps(start, Min(L, end));
    ClippedDifference(start, L, H, end);
    DivideExact(StepsBelow(start, Min(H, end)) - StepsBelow(start, Min(L, end)),
                Max(0, Min(H, end) - Max(L, start)));
  }

  lemma ClippedDifference(start: int, L: int, H: int, end: int)
    requires L <= H
    ensures Max(0, Min(H, end) - start) - Max(0, Min(L, end) - start) == Max(0, Min(H, end) - Max(L, start))
  {
  }

  lemma DivideExact(q: int, x: int)
    requires q * SecondsPerMinute == x
    ensures q == x / SecondsPerMinute
  {
  }

  lemma AlignedSteps(start: int, x: int)
    requires start % SecondsPerMinute == 0 && x % SecondsPerMinute == 0
    ensures StepsBelow(start, x) * SecondsPerMinute == Max(0, x - start)
  {
    if x > start {
      var q := (x - start) / 60;
      assert x - start == q * 60;
      assert (x - start + 59) / 60 == q;
    }
  }

  /** A weekday whose whole window lies inside a whole-minute session
      contributes the full window length. */
  lemma FullWindowDay(s: ParkingSchedule, start: int, end: int, d: int)
    requires ValidSchedule(s) && WindowStart(s) < WindowEnd(s) && WeekdayOfDay(d) != Sunday
    requires start % SecondsPerMinute == 0 && end % SecondsPerMinute == 0
    requires start <= d * SecondsPerDay + WindowStart(s) && d * SecondsPerDay + WindowEnd(s) <= end
    ensures DayMinutes(s, start, end, d) == (WindowEnd(s) - WindowStart(s)) / SecondsPerMinute
  {
    DayMinutesIsOverlap(s, start, end, d);
  }

  // ---------------------------------------------------------------------
  // The source with its midnight wrap
  // ---------------------------------------------------------------------

  /** Away from a midnight start the source's walk is the modelled one. */
  lemma {:induction false} AsWrittenMinutesAgree(s: ParkingSchedule, start: int, end: int)
    requires ValidSchedule(s) && WindowStart(s) > 0
    ensures ChargeableMinutesAsWritten(s, start, end) == ChargeableMinutes(s, start, end)
    decreases end - start
  {
    if start < end {
      AsWrittenAgreesAwayFromMidnight(s, start);
      AsWrittenMinutesAgree(s, start + SecondsPerMinute, end);
    }
  }

  /** `AsWrittenMinutesAgree` for any schedule, under its condition. */
  lemma AsWrittenMinutesAgreeAwayFromMidnight(s: ParkingSchedule, start: int, end: int)
    ensures ValidSchedule(s) && WindowStart(s) > 0 ==>
              ChargeableMinutesAsWritten(s, start, end) == ChargeableMinutes(s, start, end)
  {
    if ValidSchedule(s) && WindowStart(s) > 0 {
      AsWrittenMinutesAgree(s, start, end);
    }
  }

  /** With a 00:00 start time the source's walk bills nothing at all. */
  lemma {:induction false} MidnightStartBillsNothing(s: ParkingSchedule, start: int, end: int)
    requires WindowStart(s) == 0
    ensures ChargeableMinutesAsWritten(s, start, end) == 0
    decreases end - start
  {
    if start < end {
      MidnightStartNeverInWindow(s, start);
      MidnightStartBillsNothing(s, start + SecondsPerMinute, end);
    }
  }

  /** Monday 10:00-11:00 under a 00:00-21:00 schedule: 60 minutes intended,
      none billed as written. */
  lemma MidnightStartMinutesCounterexample()
    ensures var s := ParkingSchedule(ScheduleTime(0, 0), ScheduleTime(21, 0));
            ChargeableMinutes(s, 36000, 39600) == 60
            && ChargeableMinutesAsWritten(s, 36000, 39600) == 0
  {
    var s := ParkingSchedule(ScheduleTime(0, 0), ScheduleTime(21, 0));
    MidnightStartBillsNothing(s, 36000, 39600);
    MinutesMatchPerDay(s, 36000, 39600);
    assert DayMinutes(s, 36000, 39600, 0) == 60;
  }

  // ---------------------------------------------------------------------
  // The two billed sessions of the application tests (UTC, default window)
  // ---------------------------------------------------------------------

  /** Saturday 6 January 2024, 20:00 to 21:00. */
  const SaturdayEvening: int := 5 * 86400 + 20 * 3600
  const SaturdayClose: int := 5 * 86400 + 21 * 3600
  /** Saturday 30 December 2023, 21:00. */
  const PreviousSaturdayClose: int := -2 * 86400 + 21 * 3600

  lemma OneHourOnSaturdayEvening()
    ensures ChargeableMinutes(DefaultSchedule, SaturdayEvening, SaturdayClose) == 60
  {
    MinutesMatchPerDay(DefaultSchedule, SaturdayEvening, SaturdayClose);
    assert DayMinutes(DefaultSchedule, SaturdayEvening, SaturdayClose, 5) == 60;
  }

  /** Days -2 (Saturday 30 December, after its window) and -1 (Sunday) add
      nothing to the week. */
  lemma WeekendBeforeIsFree()
    ensures DaySum(DefaultSchedule, PreviousSaturdayClose, SaturdayClose, -2, 0) == 0
  {
    var s, a, b := DefaultSchedule, PreviousSaturdayClose, SaturdayClose;
    assert WeekdayOfDay(-1) == Sunday;
    assert StepsBelow(a, Min(-2 * SecondsPerDay + WindowEnd(s), b)) == 0;
    assert StepsBelow(a, Min(-2 * SecondsPerDay + WindowStart(s), b)) == 0;
    assert DayMinutes(s, a, b, -2) == 0;
    assert DaySum(s, a, b, 0, 0) == 0;
  }

  lemma WeekdaysAreFull()
    ensures DaySum(DefaultSchedule, PreviousSaturdayClose, SaturdayClose, 0, 6) == 6 * 780
  {
    var s, a, b := DefaultSchedule, PreviousSaturdayClose, SaturdayClose;
    FullWindowDay(s, a, b, 5);
    FullWindowDay(s, a, b, 4);
    FullWindowDay(s, a, b, 3);
    FullWindowDay(s, a, b, 2);
    FullWindowDay(s, a, b, 1);
    FullWindowDay(s, a, b, 0);
    assert DaySum(s, a, b, 6, 6) == 0;
    assert DaySum(s, a, b, 5, 6) == 780;
    assert DaySum(s, a, b, 4, 6) == 2 * 780;
    assert DaySum(s, a, b, 3, 6) == 3 * 780;
    assert DaySum(s, a, b, 2, 6) == 4 * 780;
    assert DaySum(s, a, b, 1, 6) == 5 * 780;
  }

  lemma {:induction false} DaySumSplit(s: ParkingSchedule, start: int, end: int, d0: int, m: int, d1: int)
    requires d0 <= m <= d1
    ensures DaySum(s, start, end, d0, d1) == DaySum(s, start, end, d0, m) + DaySum(s, start, end, m, d1)
    decreases m - d0
  {
    if d0 < m {
      DaySumSplit(s, start, end, d0 + 1, m, d1);
    }
  }

  lemma OneWeekPerDay()
    ensures PerDayMinutes(DefaultSchedule, PreviousSaturdayClose, SaturdayClose) == 4680
  {
    var s, a, b := DefaultSchedule, PreviousSaturdayClose, SaturdayClose;
    assert DayIndex(a) == -2 && DayIndex(b) == 5;
    WeekendBeforeIsFree();
    WeekdaysAreFull();
    DaySumSplit(s, a, b, -2, 0, 6);
  }

  /** A full week ending at the Saturday window close: six windows of 780
      minutes, the Sunday skipped. */
  lemma OneWeekFromSaturdayClose()
    ensures ChargeableMinutes(DefaultSchedule, PreviousSaturdayClose, SaturdayClose) == 4680
  {
    MinutesMatchPerDay(DefaultSchedule, PreviousSaturdayClose, SaturdayClose);
    OneWeekPerDay();
  }
}

=== FILE: dto.dfy ===
/** The response shapes the services return: the `Invoice`, `Session` and
    `Observation` views with nullable nested parts. */
module Dto {
  import opened Wrappers
  import opened Entities

  datatype SessionView = SessionView(
    license: string,
    street: string,
    startInstant: int,
    endInstant: Option<int>)

  datatype ObservationView = ObservationView(
    license: string,
    street: string,
    observationInstant: int)

  datatype InvoiceView = InvoiceView(
    invoiceId: nat,
    invoiceInstant: int,
    session: Option<SessionView>,
    observation: Option<ObservationView>,
    amount: int,
    paid: bool)

  /** `mapSession` for a session that is present. */
  function SessionViewOf(s: ParkingSession): SessionView {
    SessionView(s.license, s.street, s.startInstant, s.endInstant)
  }

  /** `mapObservation` for an observation that is present. */
  function ObservationViewOf(o: VehicleObservation): ObservationView {
    ObservationView(o.license, o.street, o.observationInstant)
  }

  /** What a started session reports back. */
  datatype StartResponse = StartResponse(license: string, street: string, startInstant: int)

  /** One entry of an add-observations request. */
  datatype ObservationRequest = ObservationRequest(license: string, street: string, observationInstant: int)
}

=== FILE: entities.dfy ===
/** The persisted entities and the in-memory store that stands in for the
    JPA repositories.

    Every entity's id is its position in its sequence: the store hands out
    ids 0, 1, 2, ... in insertion order and never deletes. Instants are
    local seconds as in `Schedule`; amounts and rates are cents. */
module Entities {
  import opened Wrappers

  /** A parking session; `endInstant` is `None` while the session is open. */
  datatype ParkingSession = ParkingSession(
    license: string,
    street: string,
    startInstant: int,
    endInstant: Option<int>)

  /** A camera observation of a parked vehicle. */
  datatype VehicleObservation = VehicleObservation(
    license: string,
    street: string,
    observationInstant: int,
    verified: bool)

  /** An invoice for a stopped session or a fine for an observation; the two
      references are the nullable `session_id` and `observation_id` columns,
      holding session and observation ids. */
  datatype ParkingInvoice = ParkingInvoice(
    session: Option<nat>,
    observation: Option<nat>,
    invoiceInstant: int,
    amount: int,
    paid: bool)

  /** The per-minute rate and the flat fine of a street. The street itself is
      the key of the rate table (a unique column). */
  datatype ParkingRate = ParkingRate(rate: int, fineRate: int)

  type RateTable = map<string, ParkingRate>

  datatype Store = Store(
    sessions: seq<ParkingSession>,
    observations: seq<VehicleObservation>,
    invoices: seq<ParkingInvoice>)

  /** The per-minute rate of a street; 0 when the street has no rate row. */
  function RateFor(rates: RateTable, street: string): int {
    if street in rates then rates[street].rate else 0
  }

  /** The fine of a street; 0 when the street has no rate row. */
  function FineRateFor(rates: RateTable, street: string): int {
    if street in rates then rates[street].fineRate else 0
  }

  /** An invoice refers to exactly one existing session or observation. */
  predicate ValidInvoice(st: Store, inv: ParkingInvoice) {
    && (inv.session.Some? <==> inv.observation.None?)
    && (inv.session.Some? ==> inv.session.value < |st.sessions|)
    && (inv.observation.Some? ==> inv.observation.value < |st.observations|)
  }

  /** Referential integrity of the store. */
  predicate ValidStore(st: Store) {
    forall k :: 0 <= k < |st.invoices| ==> ValidInvoice(st, st.invoices[k])
  }

  /** A store whose sessions and observations only grew and whose existing
      invoices are kept, with every added invoice valid, is valid again. */
  lemma ValidStoreExtends(st: Store, st': Store)
    requires ValidStore(st)
    requires |st.sessions| <= |st'.sessions| && |st.observations| <= |st'.observations|
    requires |st.invoices| <= |st'.invoices|
    requires forall k :: 0 <= k < |st.invoices| ==>
               st'.invoices[k].session == st.invoices[k].session
               && st'.invoices[k].observation == st.invoices[k].observation
    requires forall k :: |st.invoices| <= k < |st'.invoices| ==> ValidInvoice(st', st'.invoices[k])
    ensures ValidStore(st')
  {
    forall k | 0 <= k < |st'.invoices|
      ensures ValidInvoice(st', st'.invoices[k])
    {
      if k < |st.invoices| {
        assert ValidInvoice(st, st.invoices[k]);
      }
    }
  }
}

=== FILE: invoices.dfy ===
/** `InvoicesService`: the invoices of a licence as response views, and
    paying an invoice. */
module Invoices {
  import opened Wrappers
  import opened Entities
  import opened Dto

  /** `findAllBySessionLicenseOrObservationLicense`: the invoice's session,
      or its observation, belongs to the licence. */
  predicate OfLicense(st: Store, inv: ParkingInvoice, license: string)
    requires ValidInvoice(st, inv)
  {
    || (inv.session.Some? && st.sessions[inv.session.value].license == license)
    || (inv.observation.Some? && st.observations[inv.observation.value].license == license)
  }

  /** Ids of the licence's invoices from position `from` on, in store
      order. */
  function InvoiceIdsFrom(st: Store, license: string, from: nat): (r: seq<nat>)
    requires ValidStore(st) && from <= |st.invoices|
    ensures forall n :: 0 <= n < |r| ==> from <= r[n] < |st.invoices| && OfLicense(st, st.invoices[r[n]], license)
    ensures forall k :: from <= k < |st.invoices| && OfLicense(st, st.invoices[k], license) ==> k in r
    ensures forall n, m :: 0 <= n < m < |r| ==> r[n] < r[m]
    ensures |r| <= |st.invoices| - from
    decreases |st.invoices| - from
  {
    if from == |st.invoices| then []
    else if OfLicense(st, st.invoices[from], license) then [from] + InvoiceIdsFrom(st, license, from + 1)
    else InvoiceIdsFrom(st, license, from + 1)
  }

  /** `mapSession`: `None` when the invoice has no session. */
  function SessionViewFor(st: Store, inv: ParkingInvoice): Option<SessionView>
    requires ValidInvoice(st, inv)
  {
    match inv.session
    case None => None
    case Some(k) =>
      Some(SessionViewOf(st.sessions[k]))
  }

  /** `mapObservation`: `None` when the invoice has no observation. */
  function ObservationViewFor(st: Store, inv: ParkingInvoice): Option<ObservationView>
    requires ValidInvoice(st, inv)
  {
    match inv.observation
    case None => None
    case Some(j) =>
      Some(ObservationViewOf(st.observations[j]))
  }

  /** A view shows invoice `id` faithfully: id, instant, amount and paid
      copied; the session part absent exactly when the invoice has no
      session, and otherwise that session's licence, street and instants;
      likewise for the observation part. */
  predicate ShowsInvoice(st: Store, v: InvoiceView, id: nat)
    requires ValidStore(st) && id < |st.invoices|
  {
    var inv := st.invoices[id];
    && v.invoiceId == id
    && v.invoiceInstant == inv.invoiceInstant && v.amount == inv.amount && v.paid == inv.paid
    && (v.session.None? <==> inv.session.None?)
    && (v.observation.None? <==> inv.observation.None?)
    && (v.session.Some? ==>
          var s := st.sessions[inv.session.value];
          v.session.value.license == s.license && v.session.value.street == s.street
          && v.session.value.startInstant == s.startInstant && v.session.value.endInstant == s.endInstant)
    && (v.observation.Some? ==>
          var o := st.observations[inv.observation.value];
          v.observation.value.license == o.license && v.observation.value.street == o.street
          && v.observation.value.observationInstant == o.observationInstant)
  }

  /** The view of invoice `id`. */
  function ViewOf(st: Store, id: nat): (v: InvoiceView)
    requires ValidStore(st) && id < |st.invoices|
    ensures ShowsInvoice(st, v, id)
  {
    var inv := st.invoices[id];
    InvoiceView(id, inv.invoiceInstant, SessionViewFor(st, inv), ObservationViewFor(st, inv), inv.amount, inv.paid)
  }

  /** `getInvoices`: exactly the licence's invoices, by session or by
      observation, each shown faithfully, in store order. */
  function GetInvoices(st: Store, license: string): (r: seq<InvoiceView>)
    requires ValidStore(st)
    ensures forall n :: 0 <= n < |r| ==>
              r[n].invoiceId < |st.invoices|
              && OfLicense(st, st.invoices[r[n].invoiceId], license)
              && ShowsInvoice(st, r[n], r[n].invoiceId)
    ensures forall k :: 0 <= k < |st.invoices| && OfLicense(st, st.invoices[k], license) ==>
              exists n :: 0 <= n < |r| && r[n].invoiceId == k
    ensures forall n, m :: 0 <= n < m < |r| ==> r[n].invoiceId < r[m].invoiceId
    ensures |r| <= |st.invoices|
  {
    var ids := InvoiceIdsFrom(st, license, 0);
    var r := seq(|ids|, n requires 0 <= n < |ids| => ViewOf(st, ids[n]));
    ListedViewsFacts(st, license, ids, r);
    r
  }

  lemma ListedViewsFacts(st: Store, license: string, ids: seq<nat>, r: seq<InvoiceView>)
    requires ValidStore(st) && ids == InvoiceIdsFrom(st, license, 0)
    requires |r| == |ids| && forall n :: 0 <= n < |r| ==> r[n] == ViewOf(st, ids[n])
    ensures forall n :: 0 <= n < |r| ==> r[n].invoiceId == ids[n] && ShowsInvoice(st, r[n], ids[n])
    ensures forall k :: 0 <= k < |st.invoices| && OfLicense(st, st.invoices[k], license) ==>
              exists n :: 0 <= n < |r| && r[n].invoiceId == k
  {
    forall n | 0 <= n < |r|
      ensures r[n].invoiceId == ids[n] && ShowsInvoice(st, r[n], ids[n])
    {
      assert ShowsInvoice(st, ViewOf(st, ids[n]), ids[n]);
    }
    forall k | 0 <= k < |st.invoices| && OfLicense(st, st.invoices[k], license)
      ensures exists n :: 0 <= n < |r| && r[n].invoiceId == k
    {
      var n :| 0 <= n < |ids| && ids[n] == k;
      assert r[n].invoiceId == k;
    }
  }

  /** `payInvoice`: marks the invoice paid; an unknown id is `NotFound` and
      changes nothing. */
  function PayInvoice(st: Store, id: int): (r: Result<Store>)
    ensures r.Failure? <==> !(0 <= id < |st.invoices|)
    ensures r.Failure? ==> r.error == NotFound
    ensures r.Success? ==>
              && r.value.sessions == st.sessions && r.value.observations == st.observations
              && |r.value.invoices| == |st.invoices|
              && r.value.invoices[id].paid
              && r.value.invoices[id].session == st.invoices[id].session
              && r.value.invoices[id].observation == st.invoices[id].observation
              && r.value.invoices[id].invoiceInstant == st.invoices[id].invoiceInstant
              && r.value.invoices[id].amount == st.invoices[id].amount
              && (forall k :: 0 <= k < |st.invoices| && k != id ==> r.value.invoices[k] == st.invoices[k])
    ensures r.Success? && ValidStore(st) ==> ValidStore(r.value)
  {
    if 0 <= id < |st.invoices| then
      var st' := st.(invoices := st.invoices[id := st.invoices[id].(paid := true)]);
      assert ValidStore(st) ==> ValidStore(st') by {
        if ValidStore(st) { ValidStoreExtends(st, st'); }
      }
      Success(st')
    else Failure(NotFound)
  }

  /** Paying twice leaves the same store as paying once. */
  lemma PayTwiceIsPayOnce(st: Store, id: int)
    requires PayInvoice(st, id).Success?
    ensures PayInvoice(PayInvoice(st, id).value, id) == PayInvoice(st, id)
  {
    var once := PayInvoice(st, id).value;
    var twice := PayInvoice(once, id).value;
    assert twice.invoices[id] == once.invoices[id];
    assert twice.invoices == once.invoices;
  }

  /** After paying, the licence's listing shows that invoice paid and every
      other invoice as before. */
  lemma PaidInvoiceIsListedPaid(st: Store, id: nat, license: string)
    requires ValidStore(st) && id < |st.invoices|
    requires OfLicense(st, st.invoices[id], license)
    ensures var st' := PayInvoice(st, id).value;
            var views := GetInvoices(st', license);
            exists n :: 0 <= n < |views| && views[n].invoiceId == id && views[n].paid
  {
    var st' := PayInvoice(st, id).value;
    assert st'.invoices[id].session == st.invoices[id].session;
    assert OfLicense(st', st'.invoices[id], license);
    var views := GetInvoices(st', license);
    var n :| 0 <= n < |views| && views[n].invoiceId == id;
    assert ShowsInvoice(st', views[n], id);
  }
}

=== FILE: observations.dfy ===
/** `ObservationsService`: storing camera observations, and the
    reconciliation run that fines every unverified observation no session
    covers and marks it verified. The clock's `now` is a parameter. */
module Observations {
  import opened Wrappers
  import opened Entities
  import opened Dto
  import opened SessionRepository

  // ---------------------------------------------------------------------
  // Storing observations
  // ---------------------------------------------------------------------

  function NewObservation(req: ObservationRequest): VehicleObservation {
    VehicleObservation(req.license, req.street, req.observationInstant, false)
  }

  /** `addObservations`: appends one unverified observation per request,
      licence, street and instant copied. */
  function AddObservations(st: Store, reqs: seq<ObservationRequest>): (r: Store)
    ensures r.sessions == st.sessions && r.invoices == st.invoices
    ensures |r.observations| == |st.observations| + |reqs|
    ensures r.observations[..|st.observations|] == st.observations
    ensures forall i :: 0 <= i < |reqs| ==>
              var o := r.observations[|st.observations| + i];
              o.license == reqs[i].license && o.street == reqs[i].street
              && o.observationInstant == reqs[i].observationInstant && !o.verified
    ensures ValidStore(st) ==> ValidStore(r)
  {
    var added := seq(|reqs|, i requires 0 <= i < |reqs| => NewObservation(reqs[i]));
    var r := st.(observations := st.observations + added);
    assert ValidStore(st) ==> ValidStore(r) by {
      if ValidStore(st) { ValidStoreExtends(st, r); }
    }
    r
  }

  // ---------------------------------------------------------------------
  // Reconciliation
  // ---------------------------------------------------------------------

  /** An observation the run fines: not yet verified, covered by no session,
      on a street whose fine rate is non-zero. */
  predicate Finable(st: Store, rates: RateTable, j: nat)
    requires j < |st.observations|
  {
    var o := st.observations[j];
    !o.verified && !HasCoveringSession(st.sessions, o) && FineRateFor(rates, o.street) != 0
  }

  /** The fine for observation `j`, dated now. */
  function FineFor(st: Store, rates: RateTable, now: int, j: nat): ParkingInvoice
    requires j < |st.observations|
  {
    ParkingInvoice(None, Some(j), now, FineRateFor(rates, st.observations[j].street), false)
  }

  /** `createInvoice`: stores the fine unless the street's fine rate is 0.
      Exactly one invoice is added when the rate is non-zero, none
      otherwise; the fine references the observation and no session, is
      dated now, unpaid, and carries the street's fine rate. */
  function CreateFine(st: Store, rates: RateTable, now: int, j: nat): (r: Store)
    requires j < |st.observations|
    ensures r.sessions == st.sessions && r.observations == st.observations
    ensures |r.invoices| == |st.invoices| + (if FineRateFor(rates, st.observations[j].street) != 0 then 1 else 0)
    ensures r.invoices[..|st.invoices|] == st.invoices
    ensures |r.invoices| > |st.invoices| ==>
              var inv := r.invoices[|st.invoices|];
              && inv.session.None? && inv.observation == Some(j)
              && inv.invoiceInstant == now && !inv.paid
              && inv.amount == FineRateFor(rates, st.observations[j].street) != 0
    ensures ValidStore(st) ==> ValidStore(r)
  {
    if FineRateFor(rates, st.observations[j].street) == 0 then st
    else st.(invoices := st.invoices + [FineFor(st, rates, now, j)])
  }

  function MarkVerified(o: VehicleObservation): VehicleObservation {
    o.(verified := true)
  }

  /** One pass of the loop body for observation `j`: fine it when no session
      covers it, then mark it verified. A verified observation is not among
      the ones the run fetched and is left alone. Only observation `j`
      changes, and it ends verified; exactly one fine is appended when `j`
      is finable and nothing otherwise. */
  function VerifyOne(st: Store, rates: RateTable, now: int, j: nat): (r: Store)
    requires j < |st.observations|
    ensures |r.observations| == |st.observations|
    ensures r.sessions == st.sessions && |st.invoices| <= |r.invoices|
    ensures forall i :: 0 <= i < |st.observations| && i != j ==> r.observations[i] == st.observations[i]
    ensures r.observations[j] == MarkVerified(st.observations[j])
    ensures r.invoices == st.invoices + (if Finable(st, rates, j) then [FineFor(st, rates, now, j)] else [])
  {
    if st.observations[j].verified then st
    else
      var st1 := if HasCoveringSession(st.sessions, st.observations[j]) then st else CreateFine(st, rates, now, j);
      st1.(observations := st1.observations[j := MarkVerified(st1.observations[j])])
  }

  /** The run over observations `i ..` in store order. */
  function VerifyFrom(st: Store, rates: RateTable, now: int, i: nat): (r: Store)
    requires i <= |st.observations|
    ensures |r.observations| == |st.observations|
    ensures r.sessions == st.sessions && |st.invoices| <= |r.invoices|
    decreases |st.observations| - i
  {
    if i == |st.observations| then st
    else VerifyFrom(VerifyOne(st, rates, now, i), rates, now, i + 1)
  }

  /** `verifyObservations`. It only reads the sessions, neither adds nor
      removes observations, and keeps every existing invoice. */
  function VerifyObservations(st: Store, rates: RateTable, now: int): (r: Store)
    ensures r.sessions == st.sessions
    ensures |r.observations| == |st.observations|
    ensures |st.invoices| <= |r.invoices| && r.invoices[..|st.invoices|] == st.invoices
  {
    VerifyFromKeepsShape(st, rates, now, 0);
    VerifyFrom(st, rates, now, 0)
  }

  /** Number of invoices referring to observation `j`. */
  function RefCount(invs: seq<ParkingInvoice>, j: nat): nat {
    if invs == [] then 0
    else RefCount(invs[..|invs| - 1], j) + (if invs[|invs| - 1].observation == Some(j) then 1 else 0)
  }

  lemma RefCountAppend(invs: seq<ParkingInvoice>, inv: ParkingInvoice, j: nat)
    ensures RefCount(invs + [inv], j) == RefCount(invs, j) + (if inv.observation == Some(j) then 1 else 0)
  {
    assert (invs + [inv])[..|invs|] == invs;
  }

  /** An invoice of the run over `i ..`: the fine of a finable observation
      at or after `i`. */
  predicate IsFineFrom(st: Store, rates: RateTable, now: int, i: nat, inv: ParkingInvoice) {
    && inv.observation.Some?
    && i <= inv.observation.value < |st.observations|
    && Finable(st, rates, inv.observation.value)
    && inv == FineFor(st, rates, now, inv.observation.value)
  }

  /** After one pass at `i`, the later observations look the same to the
      rest of the run. */
  lemma LaterObservationsUnchanged(st: Store, rates: RateTable, now: int, i: nat)
    requires i < |st.observations|
    ensures var st1 := VerifyOne(st, rates, now, i);
            forall j :: i < j < |st.observations| ==>
              Finable(st1, rates, j) == Finable(st, rates, j)
              && FineFor(st1, rates, now, j) == FineFor(st, rates, now, j)
  {
    var st1 := VerifyOne(st, rates, now, i);
    forall j | i < j < |st.observations|
      ensures Finable(st1, rates, j) == Finable(st, rates, j)
      ensures FineFor(st1, rates, now, j) == FineFor(st, rates, now, j)
    {
      assert st1.observations[j] == st.observations[j];
    }
  }

  /** The run over `i ..` keeps sessions, earlier observations and existing
      invoices, and marks the later observations verified. */
  lemma {:induction false} VerifyFromKeepsShape(st: Store, rates: RateTable, now: int, i: nat)
    requires i <= |st.observations|
    ensures var r := VerifyFrom(st, rates, now, i);
            && (forall j :: 0 <= j < i ==> r.observations[j] == st.observations[j])
            && (forall j :: i <= j < |st.observations| ==> r.observations[j] == MarkVerified(st.observations[j]))
            && r.invoices[..|st.invoices|] == st.invoices
    decreases |st.observations| - i
  {
    if i < |st.observations| {
      var st1 := VerifyOne(st, rates, now, i);
      var r := VerifyFrom(st1, rates, now, i + 1);
      VerifyFromKeepsShape(st1, rates, now, i + 1);
      assert r.invoices[..|st1.invoices|] == st1.invoices;
      assert st1.invoices[..|st.invoices|] == st.invoices;
    }
  }

  /** Every invoice the run over `i ..` adds is the fine of a finable
      observation at or after `i`. */
  lemma {:induction false} VerifyFromAddsFines(st: Store, rates: RateTable, now: int, i: nat)
    requires i <= |st.observations|
    ensures var r := VerifyFrom(st, rates, now, i);
            forall k :: |st.invoices| <= k < |r.invoices| ==> IsFineFrom(st, rates, now, i, r.invoices[k])
    decreases |st.observations| - i
  {
    if i < |st.observations| {
      var st1 := VerifyOne(st, rates, now, i);
      var r := VerifyFrom(st1, rates, now, i + 1);
      VerifyFromAddsFines(st1, rates, now, i + 1);
      VerifyFromKeepsShape(st1, rates, now, i + 1);
      LaterObservationsUnchanged(st, rates, now, i);
      forall k | |st.invoices| <= k < |r.invoices|
        ensures IsFineFrom(st, rates, now, i, r.invoices[k])
      {
        if k < |st1.invoices| {
          assert r.invoices[k] == r.invoices[..|st1.invoices|][k];
          assert st1.invoices[k] == FineFor(st, rates, now, i);
        } else {
          assert IsFineFrom(st1, rates, now, i + 1, r.invoices[k]);
        }
      }
    }
  }

  /** The run over `i ..` adds one invoice for each finable observation at or
      after `i`, and none for any other. */
  lemma {:induction false} VerifyFromCounts(st: Store, rates: RateTable, now: int, i: nat)
    requires i <= |st.observations|
    ensures var r := VerifyFrom(st, rates, now, i);
            forall j: nat :: RefCount(r.invoices, j)
              == RefCount(st.invoices, j) + (if i <= j < |st.observations| && Finable(st, rates, j) then 1 else 0)
    decreases |st.observations| - i
  {
    if i < |st.observations| {
      var st1 := VerifyOne(st, rates, now, i);
      VerifyFromCounts(st1, rates, now, i + 1);
      LaterObservationsUnchanged(st, rates, now, i);
      forall j: nat
        ensures RefCount(st1.invoices, j) == RefCount(st.invoices, j) + (if j == i && Finable(st, rates, i) then 1 else 0)
      {
        if Finable(st, rates, i) {
          RefCountAppend(st.invoices, FineFor(st, rates, now, i), j);
        }
      }
    }
  }

  /** Everything the run over `i ..` does. */
  lemma VerifyFromFacts(st: Store, rates: RateTable, now: int, i: nat)
    requires i <= |st.observations|
    ensures var r := VerifyFrom(st, rates, now, i);
            && r.sessions == st.sessions
            && |r.observations| == |st.observations|
            && (forall j :: 0 <= j < i ==> r.observations[j] == st.observations[j])
            && (forall j :: i <= j < |st.observations| ==> r.observations[j] == MarkVerified(st.observations[j]))
            && |st.invoices| <= |r.invoices|
            && r.invoices[..|st.invoices|] == st.invoices
            && (forall k :: |st.invoices| <= k < |r.invoices| ==> IsFineFrom(st, rates, now, i, r.invoices[k]))
            && (forall j: nat :: RefCount(r.invoices, j)
                  == RefCount(st.invoices, j) + (if i <= j < |st.observations| && Finable(st, rates, j) then 1 else 0))
  {
    VerifyFromKeepsShape(st, rates, now, i);
    VerifyFromAddsFines(st, rates, now, i);
    VerifyFromCounts(st, rates, now, i);
  }

  // ---------------------------------------------------------------------
  // What a run promises
  // ---------------------------------------------------------------------

  /** Every observation is verified afterwards, with licence, street and
      instant untouched; observations are neither added nor removed. */
  lemma RunMarksAllVerified(st: Store, rates: RateTable, now: int)
    ensures var r := VerifyObservations(st, rates, now);
            && |r.observations| == |st.observations|
            && forall j :: 0 <= j < |r.observations| ==>
                 r.observations[j].verified
                 && r.observations[j].license == st.observations[j].license
                 && r.observations[j].street == st.observations[j].street
                 && r.observations[j].observationInstant == st.observations[j].observationInstant
  {
    VerifyFromFacts(st, rates, now, 0);
  }

  /** An observation gets exactly one new invoice when it was unverified, no
      session covers it and its street's fine rate is non-zero, and none
      otherwise. Existing invoices are kept. */
  lemma RunFinesExactlyTheUncovered(st: Store, rates: RateTable, now: int, j: nat)
    requires j < |st.observations|
    ensures var r := VerifyObservations(st, rates, now);
            && r.invoices[..|st.invoices|] == st.invoices
            && (RefCount(r.invoices, j) == RefCount(st.invoices, j) + 1 <==> Finable(st, rates, j))
            && (RefCount(r.invoices, j) == RefCount(st.invoices, j) <==> !Finable(st, rates, j))
  {
    VerifyFromFacts(st, rates, now, 0);
  }

  /** Each new invoice is an unpaid fine dated now, referring to a finable
      observation, for its street's fine rate. */
  lemma RunFineFields(st: Store, rates: RateTable, now: int)
    ensures var r := VerifyObservations(st, rates, now);
            forall k :: |st.invoices| <= k < |r.invoices| ==>
              var inv := r.invoices[k];
              && inv.session.None? && inv.observation.Some?
              && inv.observation.value < |st.observations|
              && Finable(st, rates, inv.observation.value)
              && inv.amount == FineRateFor(rates, st.observations[inv.observation.value].street)
              && inv.amount != 0
              && inv.invoiceInstant == now
              && !inv.paid
  {
    VerifyFromFacts(st, rates, now, 0);
    var r := VerifyObservations(st, rates, now);
    forall k | |st.invoices| <= k < |r.invoices|
      ensures r.invoices[k].session.None?
    {
      assert IsFineFrom(st, rates, now, 0, r.invoices[k]);
    }
  }

  /** A street without a rate row fines nobody, and the observation is still
      verified. */
  lemma UnratedStreetIsNotFined(st: Store, rates: RateTable, now: int, j: nat)
    requires j < |st.observations| && st.observations[j].street !in rates
    ensures var r := VerifyObservations(st, rates, now);
            RefCount(r.invoices, j) == RefCount(st.invoices, j) && r.observations[j].verified
  {
    VerifyFromFacts(st, rates, now, 0);
  }

  /** An observation under a session that is still open and started before
      it is not fined, and that session is still open afterwards. */
  lemma OpenSessionCoversLaterObservation(st: Store, rates: RateTable, now: int, j: nat, k: nat)
    requires j < |st.observations| && k < |st.sessions|
    requires st.sessions[k].license == st.observations[j].license
    requires st.sessions[k].street == st.observations[j].street
    requires st.sessions[k].startInstant < st.observations[j].observationInstant
    requires st.sessions[k].endInstant.None?
    ensures var r := VerifyObservations(st, rates, now);
            RefCount(r.invoices, j) == RefCount(st.invoices, j) && r.sessions[k].endInstant.None?
  {
    CoverageEdges(st.sessions[k], st.observations[j]);
    VerifyFromFacts(st, rates, now, 0);
  }

  /** A run keeps the store's references valid. */
  lemma RunKeepsStoreValid(st: Store, rates: RateTable, now: int)
    requires ValidStore(st)
    ensures ValidStore(VerifyObservations(st, rates, now))
  {
    VerifyFromFacts(st, rates, now, 0);
    var r := VerifyObservations(st, rates, now);
    forall k | |st.invoices| <= k < |r.invoices|
      ensures ValidInvoice(r, r.invoices[k])
    {
      assert IsFineFrom(st, rates, now, 0, r.invoices[k]);
    }
    forall k | 0 <= k < |st.invoices|
      ensures r.invoices[k] == st.invoices[k]
    {
      assert r.invoices[..|st.invoices|][k] == st.invoices[k];
    }
    ValidStoreExtends(st, r);
  }

  predicate AllVerified(st: Store) {
    forall j :: 0 <= j < |st.observations| ==> st.observations[j].verified
  }

  lemma {:induction false} VerifiedStoreIsFixed(st: Store, rates: RateTable, now: int, i: nat)
    requires i <= |st.observations| && AllVerified(st)
    ensures VerifyFrom(st, rates, now, i) == st
    decreases |st.observations| - i
  {
    if i < |st.observations| {
      VerifiedStoreIsFixed(st, rates, now, i + 1);
    }
  }

  /** A second run over an unchanged store changes nothing: no observation
      is unverified any more, so no invoice is created twice. */
  lemma RunIsIdempotent(st: Store, rates: RateTable, now: int, later: int)
    ensures var r := VerifyObservations(st, rates, now);
            VerifyObservations(r, rates, later) == r
  {
    RunMarksAllVerified(st, rates, now);
    VerifiedStoreIsFixed(VerifyObservations(st, rates, now), rates, later, 0);
  }

  // ---------------------------------------------------------------------
  // The run as the source writes it: fetch the unverified observations,
  // then process each in turn
  // ---------------------------------------------------------------------

  /** `findAllByVerifiedIsFalse`, from position `i` on: the ids of the
      unverified observations, in store order. */
  function UnverifiedFrom(obs: seq<VehicleObservation>, i: nat): (r: seq<nat>)
    requires i <= |obs|
    ensures forall n :: 0 <= n < |r| ==> i <= r[n] < |obs| && !obs[r[n]].verified
    ensures forall j :: i <= j < |obs| && !obs[j].verified ==> j in r
    ensures forall n, m :: 0 <= n < m < |r| ==> r[n] < r[m]
    decreases |obs| - i
  {
    if i == |obs| then []
    else if obs[i].verified then UnverifiedFrom(obs, i + 1)
    else [i] + UnverifiedFrom(obs, i + 1)
  }

  lemma {:induction false} SkipVerified(st: Store, rates: RateTable, now: int, i: nat, i': nat)
    requires i <= i' <= |st.observations|
    requires forall j :: i <= j < i' ==> st.observations[j].verified
    ensures VerifyFrom(st, rates, now, i) == VerifyFrom(st, rates, now, i')
    decreases i' - i
  {
    if i < i' {
      SkipVerified(st, rates, now, i + 1, i');
    }
  }

  /** Between two consecutive fetched ids every observation is verified. */
  lemma PendingGap(obs: seq<VehicleObservation>, pending: seq<nat>, n: nat)
    requires pending == UnverifiedFrom(obs, 0) && n < |pending|
    ensures forall j :: pending[n] < j < NextPending(pending, n + 1, |obs|) ==> obs[j].verified
  {
    forall j | pending[n] < j < NextPending(pending, n + 1, |obs|)
      ensures obs[j].verified
    {
      forall m | 0 <= m < |pending|
        ensures pending[m] != j
      {
        if m > n + 1 {
          assert pending[n + 1] < pending[m];
        }
      }
    }
  }

  /** The next observation the loop will process, or the end. */
  function NextPending(pending: seq<nat>, n: nat, len: nat): nat {
    if n < |pending| then pending[n] else len
  }

  /** One loop pass moves the run on from the current fetched id to the
      next one. */
  lemma LoopStep(st: Store, rates: RateTable, now: int, pending: seq<nat>, n: nat, r: Store)
    requires pending == UnverifiedFrom(st.observations, 0) && n < |pending|
    requires |r.observations| == |st.observations|
    requires forall j :: pending[n] <= j < |st.observations| ==> r.observations[j] == st.observations[j]
    ensures var r' := VerifyOne(r, rates, now, pending[n]);
            var next := NextPending(pending, n + 1, |st.observations|);
            && pending[n] < next
            && (forall j :: next <= j < |st.observations| ==> r'.observations[j] == st.observations[j])
            && VerifyFrom(r, rates, now, pending[n]) == VerifyFrom(r', rates, now, next)
  {
    var len := |st.observations|;
    var p := pending[n];
    var r' := VerifyOne(r, rates, now, p);
    var next := NextPending(pending, n + 1, len);
    PendingGap(st.observations, pending, n);
    if n + 1 < |pending| {
      assert p < next;
    }
    forall j | p < j < len
      ensures r'.observations[j] == st.observations[j]
    {
      assert r'.observations[j] == r.observations[j];
    }
    SkipVerified(r', rates, now, p + 1, next);
  }

  /** `verifyObservations` as a loop over the fetched unverified
      observations; it computes exactly the run `VerifyObservations`. */
  method RunVerification(st: Store, rates: RateTable, now: int) returns (r: Store)
    ensures r == VerifyObservations(st, rates, now)
  {
    var len := |st.observations|;
    var pending := UnverifiedFrom(st.observations, 0);
    SkipVerified(st, rates, now, 0, NextPending(pending, 0, len));
    r := st;
    var n := 0;
    while n < |pending|
      invariant 0 <= n <= |pending|
      invariant |r.observations| == len
      invariant forall j :: NextPending(pending, n, len) <= j < len ==> r.observations[j] == st.observations[j]
      invariant VerifyFrom(r, rates, now, NextPending(pending, n, len)) == VerifyObservations(st, rates, now)
    {
      LoopStep(st, rates, now, pending, n, r);
      r := VerifyOne(r, rates, now, pending[n]);
      n := n + 1;
    }
  }
}

=== FILE: scenarios.dfy ===
/** The application tests' scenarios, stated as lemmas about the model: UTC, the
    default 8:00-21:00 window, the clock fixed at Saturday 6 January 2024
    21:00, and a rate row for Europaplein of 100 cents a minute with a
    10000-cent fine. */
module Scenarios {
  import opened Wrappers
  import opened Schedule
  import opened Chargeable
  import opened Entities
  import opened Dto
  import opened SessionRepository
  import opened Sessions
  import opened Observations
  import opened Invoices

  const Europaplein: string := "Europaplein"
  const TestRates: RateTable := map[Europaplein := ParkingRate(100, 10000)]

  /** Friday 1 January 2021, 12:00. */
  const NewYear2021Noon: int := -1095 * 86400 + 12 * 3600

  /** One open session at `start` on `street` for `license`. */
  function OneOpenSession(license: string, street: string, start: int): Store {
    Store([ParkingSession(license, street, start, None)], [], [])
  }

  /** Stopping the hour from 20:00 bills 6000 cents, unpaid, and a second
      stop is `NotFound`. */
  lemma StopAfterOneHourBills6000()
    ensures var st := OneOpenSession("ALREADY_PARKING", Europaplein, SaturdayEvening);
            var r := StopSession(st, TestRates, DefaultSchedule, "ALREADY_PARKING", SaturdayClose);
            && r.Success?
            && r.value.invoice.Some? && r.value.invoice.value.amount == 6000 && !r.value.invoice.value.paid
            && r.value.store.invoices == [ParkingInvoice(Some(0), None, SaturdayClose, 6000, false)]
            && StopSession(r.value.store, TestRates, DefaultSchedule, "ALREADY_PARKING", SaturdayClose).Failure?
  {
    var st := OneOpenSession("ALREADY_PARKING", Europaplein, SaturdayEvening);
    OneHourOnSaturdayEvening();
    assert IsOpenFor(st.sessions[0], "ALREADY_PARKING");
    StopThenStopFails(st, TestRates, DefaultSchedule, "ALREADY_PARKING", SaturdayClose, SaturdayClose);
  }

  /** A schedule ending at 24:00 is not a `LocalTime`: the stop fails with
      `InvalidTime` instead of billing, and the session is not closed. */
  lemma StopUnderEndOfDay24Fails()
    ensures var st := OneOpenSession("LATE", Europaplein, 22 * 3600);
            var sched := ParkingSchedule(ScheduleTime(8, 0), ScheduleTime(24, 0));
            StopSession(st, TestRates, sched, "LATE", 23 * 3600) == Failure(InvalidTime)
  {
  }

  /** Stopping the week from the previous Saturday 21:00 bills 468000 cents. */
  lemma StopAfterOneWeekBills468000()
    ensures var st := OneOpenSession("PARKING_LONG", Europaplein, PreviousSaturdayClose);
            var r := StopSession(st, TestRates, DefaultSchedule, "PARKING_LONG", SaturdayClose);
            && r.Success?
            && r.value.store.invoices == [ParkingInvoice(Some(0), None, SaturdayClose, 468000, false)]
  {
    var st := OneOpenSession("PARKING_LONG", Europaplein, PreviousSaturdayClose);
    OneWeekFromSaturdayClose();
    assert IsOpenFor(st.sessions[0], "PARKING_LONG");
  }

  /** The same hour on a street without a rate row closes the session but
      creates no invoice. */
  lemma StopOnFreeStreetCreatesNoInvoice()
    ensures var st := OneOpenSession("PARKING_FREELY", "Free Street", SaturdayEvening);
            var r := StopSession(st, TestRates, DefaultSchedule, "PARKING_FREELY", SaturdayClose);
            && r.Success? && r.value.invoice.None? && r.value.store.invoices == []
            && r.value.store.sessions[0].endInstant == Some(SaturdayClose)
  {
    var st := OneOpenSession("PARKING_FREELY", "Free Street", SaturdayEvening);
    assert IsOpenFor(st.sessions[0], "PARKING_FREELY");
    assert "Free Street" !in TestRates;
  }

  /** An observation no session covers, reconciled twice, yields one fine of
      10000 cents listed under the observed licence. */
  lemma UncoveredObservationFinedOnce()
    ensures var st := AddObservations(Store([], [], []), [ObservationRequest("DDD999", Europaplein, NewYear2021Noon)]);
            var once := VerifyObservations(st, TestRates, SaturdayClose);
            var twice := VerifyObservations(once, TestRates, SaturdayClose);
            && twice.invoices == [ParkingInvoice(None, Some(0), SaturdayClose, 10000, false)]
            && var views := GetInvoices(twice, "DDD999");
               |views| == 1 && views[0].amount == 10000
               && views[0].observation == Some(ObservationView("DDD999", Europaplein, NewYear2021Noon))
  {
    var st := AddObservations(Store([], [], []), [ObservationRequest("DDD999", Europaplein, NewYear2021Noon)]);
    var once := VerifyObservations(st, TestRates, SaturdayClose);
    assert st.observations == [VehicleObservation("DDD999", Europaplein, NewYear2021Noon, false)];
    assert Finable(st, TestRates, 0);
    var st1 := VerifyOne(st, TestRates, SaturdayClose, 0);
    assert VerifyFrom(st1, TestRates, SaturdayClose, 1) == st1;
    assert once == st1;
    assert FineFor(st, TestRates, SaturdayClose, 0) == ParkingInvoice(None, Some(0), SaturdayClose, 10000, false);
    assert once.invoices == [ParkingInvoice(None, Some(0), SaturdayClose, 10000, false)];
    assert once.observations[0].license == "DDD999";
    RunIsIdempotent(st, TestRates, SaturdayClose, SaturdayClose);
    RunKeepsStoreValid(st, TestRates, SaturdayClose);
    var views := GetInvoices(once, "DDD999");
    assert OfLicense(once, once.invoices[0], "DDD999");
    assert ShowsInvoice(once, views[0], 0);
  }
}

=== FILE: schedule.dfy ===
/** The daily chargeable window of `ParkingScheduleProperties`, and the
    clock arithmetic the calculator uses on local civil time.

    Instants are whole local seconds counted from Monday 1 January 2024
    00:00, so the time of day is `t % 86400` and the weekday is
    `(t / 86400) % 7`, with 0 = Monday and 6 = Sunday. Dafny's `/` and `%`
    round towards minus infinity for a positive divisor, so instants before
    the epoch get the right day and weekday too. */
module Schedule {

  const SecondsPerMinute: int := 60
  const SecondsPerDay: int := 86400
  const MillisPerDay: int := 86_400_000
  const Sunday: int := 6

  /** An hour and minute of the day (`ScheduleTime`). */
  datatype ScheduleTime = ScheduleTime(hour: int, minute: int)

  /** The billed part of every day: from `startTime` (inclusive) to
      `endTime` (exclusive). The zone id is not modelled: instants are
      already local. */
  datatype ParkingSchedule = ParkingSchedule(startTime: ScheduleTime, endTime: ScheduleTime)

  /** The defaults: billing from 8:00 until 21:00. */
  const DefaultSchedule: ParkingSchedule := ParkingSchedule(ScheduleTime(8, 0), ScheduleTime(21, 0))

  /** `LocalTime.of(hour, minute)` accepts exactly these values. */
  predicate ValidTime(t: ScheduleTime) {
    0 <= t.hour <= 23 && 0 <= t.minute <= 59
  }

  predicate ValidSchedule(s: ParkingSchedule) {
    ValidTime(s.startTime) && ValidTime(s.endTime)
  }

  /** Second of the day at which a schedule time falls. */
  function SecondOfDay(t: ScheduleTime): int {
    t.hour * 3600 + t.minute * SecondsPerMinute
  }

  function WindowStart(s: ParkingSchedule): int {
    SecondOfDay(s.startTime)
  }

  function WindowEnd(s: ParkingSchedule): int {
    SecondOfDay(s.endTime)
  }

  /** Local time of day of an instant, in seconds. */
  function TimeOfDay(t: int): int {
    t % SecondsPerDay
  }

  /** Days since the epoch (negative before it). */
  function DayIndex(t: int): int {
    t / SecondsPerDay
  }

  function WeekdayOfDay(d: int): int {
    d % 7
  }

  function Weekday(t: int): int {
    WeekdayOfDay(DayIndex(t))
  }

  /** A step is charged when its time of day lies in the window and its day
      is not a Sunday. The window start is inclusive. */
  predicate InWindow(s: ParkingSchedule, t: int) {
    WindowStart(s) <= TimeOfDay(t) < WindowEnd(s) && Weekday(t) != Sunday
  }

  lemma TimeOfDayBounds(t: int)
    ensures 0 <= TimeOfDay(t) < SecondsPerDay
    ensures t == DayIndex(t) * SecondsPerDay + TimeOfDay(t)
  {
  }

  lemma ValidScheduleBounds(s: ParkingSchedule)
    requires ValidSchedule(s)
    ensures 0 <= WindowStart(s) < SecondsPerDay
    ensures 0 <= WindowEnd(s) < SecondsPerDay
    ensures WindowStart(s) % SecondsPerMinute == 0 && WindowEnd(s) % SecondsPerMinute == 0
  {
  }

  // ---------------------------------------------------------------------
  // The window test as the source writes it.
  //
  // The source turns the inclusive start into an exclusive one by moving it
  // one millisecond back and asking `isAfter`. `LocalTime` arithmetic wraps
  // around midnight, so for a start time of 00:00 the bound becomes
  // 23:59:59.999, after which no whole-second time of day falls.
  // ---------------------------------------------------------------------

  /** The shifted start bound, in milliseconds of the day, wrapping at
      midnight as `LocalTime.minus` does. */
  function ShiftedStartMillis(s: ParkingSchedule): int {
    (WindowStart(s) * 1000 - 1) % MillisPerDay
  }

  /** The source's three-part test: after the shifted start, before the end,
      and not on a Sunday. */
  predicate InWindowAsWritten(s: ParkingSchedule, t: int) {
    && TimeOfDay(t) * 1000 > ShiftedStartMillis(s)
    && TimeOfDay(t) * 1000 < WindowEnd(s) * 1000
    && Weekday(t) != Sunday
  }

  /** For every valid schedule that does not start at midnight (the default
      8:00 among them) the source's test is exactly the inclusive window. */
  lemma AsWrittenAgreesAwayFromMidnight(s: ParkingSchedule, t: int)
    requires ValidSchedule(s) && WindowStart(s) > 0
    ensures InWindowAsWritten(s, t) <==> InWindow(s, t)
  {
    ValidScheduleBounds(s);
    assert ShiftedStartMillis(s) == WindowStart(s) * 1000 - 1;
  }

  /** With a start time of 00:00 the source's test never holds. */
  lemma MidnightStartNeverInWindow(s: ParkingSchedule, t: int)
    ensures WindowStart(s) == 0 ==> !InWindowAsWritten(s, t)
  {
    if WindowStart(s) == 0 {
      assert ShiftedStartMillis(s) == MillisPerDay - 1;
      TimeOfDayBounds(t);
    }
  }

  /** The concrete input: a 00:00-21:00 schedule and Monday 10:00. The
      intended window charges that minute; the source's test does not. */
  lemma MidnightStartCounterexample()
    ensures var s := ParkingSchedule(ScheduleTime(0, 0), ScheduleTime(21, 0));
            InWindow(s, 36000) && !InWindowAsWritten(s, 36000)
  {
    var s := ParkingSchedule(ScheduleTime(0, 0), ScheduleTime(21, 0));
    MidnightStartNeverInWindow(s, 36000);
  }
}

=== FILE: session_repository.dfy ===
/** The two session queries of `ParkingSessionRepository`: the open session
    of a licence, and the session covering an observation. */
module SessionRepository {
  import opened Wrappers
  import opened Entities

  /** `findByLicenseAndEndInstantIsNull`: same licence, no end instant. */
  predicate IsOpenFor(s: ParkingSession, license: string) {
    s.license == license && s.endInstant.None?
  }

  predicate HasOpenSession(sessions: seq<ParkingSession>, license: string) {
    exists k :: 0 <= k < |sessions| && IsOpenFor(sessions[k], license)
  }

  /** At most one session of the licence is open. */
  predicate AtMostOneOpen(sessions: seq<ParkingSession>, license: string) {
    forall i, j ::
      (0 <= i < |sessions| && 0 <= j < |sessions|
       && IsOpenFor(sessions[i], license) && IsOpenFor(sessions[j], license)) ==> i == j
  }

  /** The first open session of the licence at or after position `from`. */
  function FindOpenFrom(sessions: seq<ParkingSession>, license: string, from: nat): (r: Option<nat>)
    requires from <= |sessions|
    ensures r.None? <==> forall k :: from <= k < |sessions| ==> !IsOpenFor(sessions[k], license)
    ensures r.Some? ==> from <= r.value < |sessions| && IsOpenFor(sessions[r.value], license)
    ensures r.Some? ==> forall k :: from <= k < r.value ==> !IsOpenFor(sessions[k], license)
    decreases |sessions| - from
  {
    if from == |sessions| then None
    else if IsOpenFor(sessions[from], license) then Some(from)
    else FindOpenFrom(sessions, license, from + 1)
  }

  /** The open session of a licence, if any: the first one in store order. */
  function FindOpenSession(sessions: seq<ParkingSession>, license: string): (r: Option<nat>)
    ensures r.None? <==> !HasOpenSession(sessions, license)
    ensures r.Some? ==> r.value < |sessions| && IsOpenFor(sessions[r.value], license)
    ensures r.Some? && AtMostOneOpen(sessions, license) ==>
              forall k :: 0 <= k < |sessions| && IsOpenFor(sessions[k], license) ==> k == r.value
  {
    FindOpenFrom(sessions, license, 0)
  }

  /** `findSessionForObservation`: same licence and street, started strictly
      before the observation, and ended at or after it or still open. */
  predicate Covers(s: ParkingSession, o: VehicleObservation)
    ensures Covers(s, o) && s.endInstant.Some? ==> s.startInstant < s.endInstant.value
    ensures Covers(s, o) && s.endInstant.None? ==> IsOpenFor(s, o.license)
  {
    && s.license == o.license
    && s.street == o.street
    && s.startInstant < o.observationInstant
    && (s.endInstant.None? || s.endInstant.value >= o.observationInstant)
  }

  predicate HasCoveringSession(sessions: seq<ParkingSession>, o: VehicleObservation) {
    exists k :: 0 <= k < |sessions| && Covers(sessions[k], o)
  }

  /** The edges of coverage: licence and street must match, a session
      starting at the observation instant does not cover it, one ending at
      that instant does, and so does an open one started before it. */
  lemma CoverageEdges(s: ParkingSession, o: VehicleObservation)
    ensures Covers(s, o) ==> s.license == o.license && s.street == o.street
    ensures s.startInstant == o.observationInstant ==> !Covers(s, o)
    ensures (s.license == o.license && s.street == o.street && s.startInstant < o.observationInstant
             && s.endInstant == Some(o.observationInstant)) ==> Covers(s, o)
    ensures (s.license == o.license && s.street == o.street && s.startInstant < o.observationInstant
             && s.endInstant.None?) ==> Covers(s, o)
  {
  }
}

=== FILE: sessions.dfy ===
/** `SessionsService`: starting a session, and stopping it with the amount
    computed by the chargeable-minutes calculator and an invoice when that
    amount is non-zero. The clock's `now` is a parameter. */
module Sessions {
  import opened Wrappers
  import opened Schedule
  import opened Chargeable
  import opened Entities
  import opened Dto
  import opened SessionRepository

  /** What a successful stop leaves behind: the new store, and the invoice
      view or `None` (the source returns `null`) when nothing is owed. */
  datatype StopOutcome = StopOutcome(store: Store, invoice: Option<InvoiceView>)

  /** Stores a new open session for the licence, started now. Nothing checks
      for a session of the licence that is already open. */
  function StartSession(st: Store, license: string, street: string, now: int): (r: (Store, StartResponse))
    ensures |r.0.sessions| == |st.sessions| + 1 && r.0.sessions[..|st.sessions|] == st.sessions
    ensures IsOpenFor(r.0.sessions[|st.sessions|], license)
    ensures r.0.sessions[|st.sessions|].street == street && r.0.sessions[|st.sessions|].startInstant == now
    ensures r.0.observations == st.observations && r.0.invoices == st.invoices
    ensures r.1 == StartResponse(license, street, now)
    ensures ValidStore(st) ==> ValidStore(r.0)
  {
    var session := ParkingSession(license, street, now, None);
    var st' := st.(sessions := st.sessions + [session]);
    assert ValidStore(st) ==> ValidStore(st') by {
      if ValidStore(st) {
        ValidStoreExtends(st, st');
      }
    }
    (st', StartResponse(license, street, now))
  }

  /** Starting keeps the licence at one open session at most exactly when it
      had none open before. */
  lemma StartKeepsOneOpenIffNoneOpen(st: Store, license: string, street: string, now: int)
    requires AtMostOneOpen(st.sessions, license)
    ensures AtMostOneOpen(StartSession(st, license, street, now).0.sessions, license)
            <==> !HasOpenSession(st.sessions, license)
  {
    var s' := StartSession(st, license, street, now).0.sessions;
    var n := |st.sessions|;
    if HasOpenSession(st.sessions, license) {
      var k :| 0 <= k < n && IsOpenFor(st.sessions[k], license);
      assert s'[k] == st.sessions[k];
      assert IsOpenFor(s'[k], license) && IsOpenFor(s'[n], license) && k != n;
    } else {
      forall i | 0 <= i < n
        ensures !IsOpenFor(s'[i], license)
      {
        assert s'[i] == st.sessions[i];
      }
    }
  }

  /** `calculateAmountForSession`: chargeable minutes of the session times
      the street's per-minute rate (0 without a rate row), with the window
      start inclusive; for every valid schedule not starting at 00:00 that is
      the source's own count times the rate. Nothing is owed
      exactly when no minute is chargeable or the street is free; a
      non-negative rate is charged for at most one minute per loop step. */
  function AmountForSession(rates: RateTable, sched: ParkingSchedule, s: ParkingSession): (r: int)
    requires s.endInstant.Some?
    ensures r == 0 <==> ChargeableMinutes(sched, s.startInstant, s.endInstant.value) == 0 || RateFor(rates, s.street) == 0
    ensures s.street !in rates ==> r == 0
    ensures RateFor(rates, s.street) >= 0 ==>
              0 <= r <= StepsBelow(s.startInstant, s.endInstant.value) * RateFor(rates, s.street)
    ensures ValidSchedule(sched) && WindowStart(sched) > 0 ==>
              r == ChargeableMinutesAsWritten(sched, s.startInstant, s.endInstant.value) * RateFor(rates, s.street)
  {
    AsWrittenMinutesAgreeAwayFromMidnight(sched, s.startInstant, s.endInstant.value);
    MulMonotone(ChargeableMinutes(sched, s.startInstant, s.endInstant.value),
                StepsBelow(s.startInstant, s.endInstant.value), RateFor(rates, s.street));
    ChargeableMinutes(sched, s.startInstant, s.endInstant.value) * RateFor(rates, s.street)
  }

  lemma MulMonotone(a: nat, b: nat, c: int)
    requires a <= b
    ensures c >= 0 ==> 0 <= a * c <= b * c
  {
  }

  /** The amount is the per-day chargeable minutes times the rate, and 0 for
      a street without a rate row. */
  lemma AmountIsMinutesTimesRate(rates: RateTable, sched: ParkingSchedule, s: ParkingSession)
    requires ValidSchedule(sched) && s.endInstant.Some?
    ensures AmountForSession(rates, sched, s)
         == PerDayMinutes(sched, s.startInstant, s.endInstant.value) * RateFor(rates, s.street)
    ensures s.street !in rates ==> AmountForSession(rates, sched, s) == 0
  {
    MinutesMatchPerDay(sched, s.startInstant, s.endInstant.value);
  }

  /** The session closed at `now`. */
  function ClosedAt(s: ParkingSession, now: int): ParkingSession {
    s.(endInstant := Some(now))
  }

  /** `stopParkingSession`: closes the licence's open session at `now`; if
      the amount owed is non-zero, stores an unpaid invoice for the session
      dated at its end and returns its view. No open session: `NotFound`.
      An open session but an invalid schedule: the amount calculation
      throws, the transaction rolls back (no new store is returned) and the
      caller gets `InvalidTime`. */
  function StopSession(st: Store, rates: RateTable, sched: ParkingSchedule, license: string, now: int): (r: Result<StopOutcome>)
    ensures r == Failure(NotFound) <==> !HasOpenSession(st.sessions, license)
    ensures r == Failure(InvalidTime) <==> HasOpenSession(st.sessions, license) && !ValidSchedule(sched)
    ensures r.Success? <==> HasOpenSession(st.sessions, license) && ValidSchedule(sched)
    ensures r.Success? ==>
      var k := FindOpenSession(st.sessions, license).value;
      var closed := ClosedAt(st.sessions[k], now);
      var amount := ChargeableMinutes(sched, st.sessions[k].startInstant, now) * RateFor(rates, st.sessions[k].street);
      && r.value.store.sessions == st.sessions[k := closed]
      && r.value.store.observations == st.observations
      && (amount == 0 ==> r.value.store.invoices == st.invoices && r.value.invoice.None?)
      && (amount != 0 ==>
            && r.value.store.invoices == st.invoices + [ParkingInvoice(Some(k), None, now, amount, false)]
            && r.value.invoice == Some(InvoiceView(|st.invoices|, now, Some(SessionViewOf(closed)), None, amount, false)))
    ensures r.Success? && ValidStore(st) ==> ValidStore(r.value.store)
  {
    match FindOpenSession(st.sessions, license)
    case None => Failure(NotFound)
    case Some(k) =>
      if !ValidSchedule(sched) then Failure(InvalidTime)
      else
        var closed := ClosedAt(st.sessions[k], now);
        var sessions' := st.sessions[k := closed];
        var amount := AmountForSession(rates, sched, closed);
        if amount == 0 then
          var st' := st.(sessions := sessions');
          assert ValidStore(st) ==> ValidStore(st') by {
            if ValidStore(st) { ValidStoreExtends(st, st'); }
          }
          Success(StopOutcome(st', None))
        else
          var invoice := ParkingInvoice(Some(k), None, now, amount, false);
          var st' := st.(sessions := sessions', invoices := st.invoices + [invoice]);
          assert ValidStore(st) ==> ValidStore(st') by {
            if ValidStore(st) {
              assert ValidInvoice(st', invoice);
              ValidStoreExtends(st, st');
            }
          }
          Success(StopOutcome(st', Some(InvoiceView(|st.invoices|, now, Some(SessionViewOf(closed)), None, amount, false))))
  }

  /** Stopping leaves the licence with no open session when it had only one,
      so a second stop for the same licence is `NotFound`. */
  lemma StopThenStopFails(st: Store, rates: RateTable, sched: ParkingSchedule, license: string, now: int, later: int)
    requires AtMostOneOpen(st.sessions, license)
    requires StopSession(st, rates, sched, license, now).Success?
    ensures var st' := StopSession(st, rates, sched, license, now).value.store;
            !HasOpenSession(st'.sessions, license)
            && StopSession(st', rates, sched, license, later) == Failure(NotFound)
  {
    var k := FindOpenSession(st.sessions, license).value;
    var st' := StopSession(st, rates, sched, license, now).value.store;
    forall j | 0 <= j < |st'.sessions|
      ensures !IsOpenFor(st'.sessions[j], license)
    {
      if j != k {
        assert st'.sessions[j] == st.sessions[j];
      }
    }
  }

  /** A stop creates at most one invoice, and when it does the invoice is
      unpaid, refers to the closed session, is dated at the session's end and
      carries its non-zero amount. */
  lemma StopInvoiceShape(st: Store, rates: RateTable, sched: ParkingSchedule, license: string, now: int)
    requires StopSession(st, rates, sched, license, now).Success?
    ensures var out := StopSession(st, rates, sched, license, now).value;
            var n := |st.invoices|;
            && out.store.invoices[..n] == st.invoices
            && n <= |out.store.invoices| <= n + 1
            && (out.invoice.Some? <==> |out.store.invoices| == n + 1)
            && (|out.store.invoices| == n + 1 ==>
                  var inv := out.store.invoices[n];
                  var k := inv.session.value;
                  && inv.session.Some? && inv.observation.None?
                  && k < |out.store.sessions| && IsOpenFor(st.sessions[k], license)
                  && out.store.sessions[k].endInstant == Some(inv.invoiceInstant)
                  && inv.invoiceInstant == now
                  && !inv.paid && inv.amount != 0
                  && inv.amount == AmountForSession(rates, sched, out.store.sessions[k]))
  {
  }
}

=== FILE: wrappers.dfy ===
/** Option and Result for the services' outcomes. */
module Wrappers {

  /** A value that may be absent: a nullable column or an empty `Optional`. */
  datatype Option<+T> = None | Some(value: T)

  /** Errors the services surface to their callers. `NotFound` is the
      `NoSuchElementException` thrown by `orElseThrow()`; `InvalidTime` is
      the `DateTimeException` `LocalTime.of` throws for a schedule hour
      outside 0-23 or minute outside 0-59. */
  datatype Error = NotFound | InvalidTime

  /** Either the operation's value or the error it raised. */
  datatype Result<+R> = Success(value: R) | Failure(error: Error)
}
